=== FILE: README.md ===
# TM Proxy — a Dafny model of the request-forwarding core

The proxy (`main.py`, a FastAPI application) sits between a trusted front-end
and two upstream telemetry services, ARC and IRRMS. Every modelled endpoint first
checks a shared secret carried in the `Authorization` header. It then builds one
outbound request, injecting the IRRMS authenticate key where needed. The ARC
and IRRMS endpoints return the upstream reply as a `{status_code, json | text}`
envelope. The debug probe returns a status and a short body snippet, and the
address endpoint returns the host name and the public address the echo
service reports.

This project models that decision and construction logic as pure functions:

- **Auth** — `check_auth`: 401 for an absent or empty header. Otherwise a
  token is taken: the text after a leading `"Bearer "` (what `split(" ", 1)[1]`
  gives), or the whole header, stripped of Python whitespace. The call gets 403
  unless that token equals `PROXY_SECRET`.
- **Credentials** — `get_irrms_key_for_shed` and the `or` at line 104. A
  non-empty caller override wins. Otherwise `IRRMS_<SHED>_KEY` is read, with
  the shed name upper-cased. An empty shed name never reads the environment.
  No non-empty key means 400.
- **Irrms** — the fixed header set, the eleven-entry payload with its
  defaults, the `is not None` filter, and the handler `irrms_fetch`.
- **Arc** — `body.page or 1`, the URL `ARC_LIVE_URL + "?page=" + str(page)`,
  and the handler `arc_fetch`.
- **Http** — the envelope choice (`json` when the body parses, else the text
  cut to 2000 characters), the 502 for a failed call, and the debug snippet
  (empty for an empty body, else the first 800 characters plus `"..."`).
- **Debug** — `debug_check` and `get_server_ip`, both behind the same gate.
- **PyStr**, **Decimal**, **Fields**, **Config**, **Types** — the Python
  built-ins the above rely on (`str.strip`, `str.split(sep, 1)`, `str.upper`,
  slicing, `str(int)`, `dict.get`, `os.environ.get`), and shared value types.

Each handler is a function of the configuration, the request body, the
header, and an abstract upstream outcome: `Unreachable(cause)` or
`Reply(status, body, parsed)`, where `parsed` is the JSON decoding when the
body parses. It returns an `Exchange`: either `Rejected(error)`, which carries
no outbound request, or `Forwarded(request, reply)`. So "no call is issued on
an error path" holds by construction. The environment is an immutable
`map<string, string>`.

Behaviour of the code worth noting:

- IRRMS is one POST to `IRRMS_DATA_URL` with the key as `Authorization`. There
  is no login phase, and `IRRMS_LOGIN_URL` / `ARC_LOGIN_URL` are read but
  unused.
- `fromDateTime` / `toDateTime` are sent as the body gives them, and
  `startDate` / `endDate` are taken from `extra`.
- The header's token is stripped of surrounding whitespace, after an
  optional leading `"Bearer "`, before it is compared with the secret.
- A negative ARC page is sent as is. Only `None` and `0` become 1.

## Model

| member | source | states |
|---|---|---|
| Config.EnvGet | main.py:22-26 | `os.environ.get(name, default)`: the variable's value when it is set, even to "", else the default |
| Config.Load | main.py:22-26 | each of the five settings is its variable's value when set and its default otherwise; the environment is kept for the per-shed key lookups |
| Config.LoadDefaults | main.py:22-26 | with none of the five variables set, every setting is its default, including the secret "changeme" |
| Config.LoadSetSecret | main.py:22 | a set `PROXY_SECRET`, even an empty one, replaces the default |
| PyStr.TrimLeft | main.py:49-51 | the result is a suffix of the input, everything dropped is whitespace, and it does not start with whitespace |
| PyStr.TrimRight | main.py:49-51 | the result is a prefix of the input, everything dropped is whitespace, and it does not end with whitespace |
| PyStr.Strip | main.py:49-51 | `strip()` returns a string with no surrounding whitespace that the input pads with whitespace only |
| PyStr.StripExactly | main.py:49-51 | `strip(s) == x` holds exactly when `x` has no surrounding whitespace and `s` is `x` padded with whitespace |
| PyStr.IndexOf | main.py:49 | the index found holds the character and none occurs before it; no index means the character does not occur |
| PyStr.SplitOnce | main.py:49 | `split(sep, 1)` gives one part (the whole string) exactly when `sep` is absent, else the parts before and after the first `sep` |
| PyStr.SplitOnceAfter | main.py:48-49 | for a header starting with "Bearer ", `split(" ", 1)[1]` is everything after those seven characters |
| PyStr.Upper | main.py:33 | `upper()` keeps the length and upper-cases each character in place |
| PyStr.UpperIgnoresCase | main.py:33 | two strings upper-case to the same string exactly when they differ only in letter case |
| PyStr.Take | main.py:135 | `s[:n]` is a prefix of `s` of length `min(len(s), n)` |
| Decimal.NatToString | main.py:147 | a natural number renders as a non-empty string of digits without a leading zero |
| Decimal.NatToStringRoundTrip | main.py:147 | reading back the digits of a natural number gives the number |
| Decimal.IntToString | main.py:147 | `str(i)` is canonical: digits with no leading zero, after a minus sign exactly when `i` is negative |
| Decimal.CanonicalIsRendering | main.py:147 | every canonical decimal string is `str` of the integer it reads as, so with the round trip each integer has exactly one canonical spelling |
| Decimal.IntToStringRoundTrip | main.py:147 | `str(i)` reads back as `i`, negative numbers included, so distinct pages render differently |
| PyStr.IsSpace | main.py:49-51 | the characters `strip()` removes are exactly Python's 29 whitespace code points: U+0009–U+000D, U+001C–U+001F, U+0020, U+0085, U+00A0, U+1680, U+2000–U+200A, U+2028, U+2029, U+202F, U+205F, U+3000 |
| Types.NonEmpty | main.py:45-46 | an optional string is falsy exactly when it is `None` or `""` |
| Auth.Token | main.py:47-51 | the compared token is the stripped header after removing a leading "Bearer ", which is what splitting at the first space yields |
| Auth.CheckAuth | main.py:44-53 | 401 exactly for an absent or empty header, otherwise 403 or pass, and a secret with surrounding whitespace can never pass |
| Auth.AcceptsExactly | main.py:44-53 | a non-empty header passes exactly when, after an optional "Bearer ", it is the secret padded with whitespace only, and the secret is itself trimmed |
| Auth.AcceptsBearer | main.py:47-53 | for a secret without surrounding whitespace, "Bearer " followed by the secret, with any whitespace around it, passes |
| Auth.AcceptsPadded | main.py:47-53 | for a secret without surrounding whitespace, the secret preceded by whitespace, and possibly followed by it, passes |
| Auth.AcceptsBare | main.py:47-53 | for a non-empty secret without surrounding whitespace, the bare secret passes unless it begins with "Bearer " |
| Auth.WhitespaceOnlyHeader | main.py:44-53 | a non-empty whitespace-only header gets 403, not 401, for a non-empty secret, and passes when the secret is empty |
| Auth.BearerLookalikeSecretRefused | main.py:47-53 | a secret beginning with "Bearer " is refused with 403 when sent bare |
| Credentials.ShedKeyName | main.py:33 | the variable name is `IRRMS_`, then the shed name upper-cased, then `_KEY` |
| Credentials.KeyForShed | main.py:30-34 | no key for an empty shed name; otherwise exactly the environment's value under `IRRMS_<SHED>_KEY`, if set |
| Credentials.Or | main.py:104 | Python `a or b`: the result is `a` when `a` is truthy and `b` otherwise, so it is truthy exactly when either is |
| Credentials.ResolveKey | main.py:104-106 | a non-empty override is returned unchanged; otherwise success exactly when the shed name is non-empty and its variable is set and non-empty, giving that value; otherwise 400 |
| Credentials.ShedKeyNameIgnoresCase | main.py:33 | two shed names use the same variable exactly when they differ only in letter case |
| Credentials.ResolveKeyIgnoresCase | main.py:33-34 | resolution does not depend on the case of the shed name |
| Credentials.EmptyShedNeedsOverride | main.py:31-32 | with an empty shed name only a non-empty override resolves, whatever the environment holds |
| Fields.Get | main.py:120 | `dict.get` finds a value exactly when the key is present, and the value is stored under that key |
| Fields.DropNone | main.py:128 | the filtered dict has no `None` value, keeps exactly the non-`None` entries, and keeps keys distinct |
| Fields.DropNoneConcat | main.py:128 | filtering a concatenation filters each part in turn, so the kept entries keep their original order |
| Fields.GetDropNone | main.py:128 | after filtering, a key maps to its original value unless that value was `None`, in which case it is absent |
| Http.EnvelopeObject | main.py:133-135 | the returned dict has exactly two distinct keys: `status_code` with the status, then `json` with the decoded value or `text` with the text |
| Http.Normalize | main.py:129-137 | a failed call gives 502 with the cause; otherwise `status_code` is the upstream status, `json` is present exactly when the body parses, and `text` is the body's prefix of length `min(len, 2000)` |
| Http.EnvelopeHasOneBody | main.py:132-135 | the returned object has two keys: `status_code` with the upstream status and exactly one of `json` and `text` |
| Http.ShortTextIsLossless | main.py:135 | a non-JSON body of at most 2000 characters is returned whole |
| Http.Snippet | main.py:90 | the snippet is empty exactly for an empty body, else the body's prefix of length `min(len, 800)` followed by "..." |
| Http.SnippetRoundTrip | main.py:90 | removing the "..." gives back a body of at most 800 characters, or the first 800 of a longer one |
| Irrms.Headers | main.py:108-114 | the five headers `Content-Type`, `Origin`, `Referer`, `Accept`, `Authorization` with their fixed values, distinct names, and the key as `Authorization` |
| Irrms.ShedIdOrZero | main.py:119 | `body.shedId or 0` is the given id, or 0 for `None` |
| Types.Truthy | main.py:120-121 | a JSON value is falsy exactly when it is `None`, `False`, `0`, `""`, `[]` or `{}` |
| Irrms.ExtraValue | main.py:120-121 | a date from `extra` is taken exactly when `extra` holds a truthy value for it, and then unchanged |
| Irrms.RawPayload | main.py:118-126 | the written payload has the eleven keys in the written order |
| Irrms.Payload | main.py:118-128 | the sent payload has no `None` value and no key other than the eleven written ones |
| Irrms.PayloadEntry | main.py:118-128 | each written entry is in the sent payload exactly when its value is not `None` |
| Irrms.PayloadZeroIds | main.py:119 | `locoId`, `locoTypeId` and `vendorId` are always sent as 0 |
| Irrms.PayloadSearchMode | main.py:122-125 | `actionMode`, `locoNo` and `refId` are always "temperatureventilation", "All" and "GetSearchData" |
| Irrms.PayloadShedId | main.py:118-128 | `shedId` is always sent, 0 when the body's is `None`; no key repeats and no value is `None` |
| Irrms.PayloadOptionalFields | main.py:120-128 | the date-times are sent exactly when supplied, even empty; `startDate`/`endDate` exactly when `extra` holds a truthy value, unchanged |
| Irrms.Fetch | main.py:96-137 | gate first, then key resolution; a request exists only when both pass, and it is a POST of the payload to the data URL with the fixed headers and the resolved key as `Authorization`, 25 s, with the normalised reply |
| Irrms.Fetch400Exactly | main.py:102-106 | past the gate, 400 is returned exactly when there is no non-empty override and no non-empty key variable for a non-empty shed name |
| Irrms.FetchGateFirst | main.py:102 | for a validated body, a missing or empty header gives 401 and a wrong token 403, whatever the keys |
| Irrms.FetchAuthorizationIsKey | main.py:104-114 | the request's `Authorization` header is the non-empty resolved key: the override if non-empty, else the shed's variable |
| Arc.Page | main.py:146 | the page is the requested one unless it is `None` or 0, which give 1; it is never 0 |
| Arc.LiveUrl | main.py:147 | the URL is the base, then "?page=", then a canonical decimal that reads back as the page, which is therefore exactly `str(page)` |
| Arc.LiveUrlInjective | main.py:147 | different pages give different URLs |
| Arc.NegativePagePassesThrough | main.py:146-147 | a negative page is neither rejected nor replaced and reaches the URL |
| Arc.DefaultPageUrl | main.py:146-147 | an absent or zero page ends the URL with "?page=1" |
| Arc.Fetch | main.py:140-155 | rejected exactly when the gate fails; otherwise one GET of the live URL for the page, no headers or body, 20 s, with the normalised reply |
| Debug.Check | main.py:84-93 | gate first; then the caller's URL with the upper-cased method, 15 s; a failed call is 502 "Error during fetch: …", otherwise the upstream status and the body's snippet (empty exactly for an empty body, else its first 800 characters and "..."), at most 803 characters |
| Debug.SnippetAlwaysMarked | main.py:90 | a non-empty body of at most 800 characters is shown whole and still gets "..." appended |
| Debug.PublicIp | main.py:76-80 | the `ip` entry is reported exactly when the echo reply parses to an object that has one; otherwise, an unreachable service, a body that is not JSON, or JSON that is not an object give `None` |
| Debug.ServerIp | main.py:71-81 | gate first; then one 6 s GET of the echo service; never fails past the gate, reports the given host name and, as `public_ip`, the echo reply's `ip` entry as `PublicIp` defines it |

## Left out

- Network I/O and the `requests` session are not modelled. This includes the
  urllib3 `Retry` policy (2 retries, backoff 0.5, statuses 502/503/504), which
  lives in a library outside this code. The upstream is an input.
- JSON parsing is an input, not modelled: `parsed` says whether and to what
  the body decodes. JSON floats are not modelled.
- `socket.gethostname()` is not modelled. The host name is an input.
- FastAPI routing, pydantic validation and `HTTPException` are replaced by
  `Exchange`, `Result` and `HttpError`. Defaults filled by validation appear
  as already present in the body. Type coercion by pydantic is not modelled.
- Request validation comes before the gate: FastAPI answers 422 for a body
  or query that fails validation (no `shed_name`, no `url`) before the
  handler, and so `check_auth`, runs. The model's bodies are already valid,
  so "gate first" means first within the handler.
- Logging is not modelled, and neither is the unused `now` variable at
  line 116.
- `test_arc` and `test_irrms` (lines 157-172) are not modelled. They are
  ungated raw probes with no logic beyond a 300-character slice.
- Debug.Check: the `dict(r.headers)` snapshot is not part of the report.
- PyStr.Upper: only ASCII letters are upper-cased. Python's `str.upper`
  also maps other letters, some to several characters (`ß` to `SS`). So the
  case-insensitivity results cover ASCII case only.
- Fields.Get: a JSON object is its entries in order. `get` returns the first
  match. This agrees with Python for objects without repeated keys, as is
  every dict built here.
- Debug.PublicIp: the echo reply is decoded outside the model. If it repeated
  `ip`, Python's decoder would keep the last value, while `Get` returns the
  first. So the contract matches Python only for replies without a repeated
  `ip`.

=== FILE: arc.dfy ===
/** The ARC endpoint (`arc_fetch`): gate, page default, live-data URL and
    the response envelope. */
module Arc {
  import opened Types
  import opened Decimal
  import opened Config
  import opened Auth
  import opened Http

  /** The validated request body. A missing `page` has already been given
      its default 1 by validation; `None` here is an explicit `null`. */
  datatype FetchRequest = FetchRequest(page: Option<int>)

  const LiveTimeout: nat := 20
  const PageQuery: string := "?page="

  /** `body.page or 1`: the requested page unless it is `None` or `0`. */
  function Page(body: FetchRequest): (p: int)
    ensures p != 0
    ensures body.page.Some? && body.page.value != 0 ==> p == body.page.value
    ensures body.page.None? || body.page.value == 0 ==> p == 1
  {
    if body.page.Some? && body.page.value != 0 then body.page.value else 1
  }

  /** `f"{ARC_LIVE_URL}?page={page}"`. */
  function LiveUrl(base: string, page: int): (url: string)
    ensures |url| > |base| + |PageQuery|
    ensures url[..|base|] == base
    ensures url[|base|..|base| + |PageQuery|] == PageQuery
    ensures Canonical(url[|base| + |PageQuery|..])
    ensures ParseInt(url[|base| + |PageQuery|..]) == Some(page)
  {
    IntToStringRoundTrip(page);
    var url := base + PageQuery + IntToString(page);
    assert url[|base| + |PageQuery|..] == IntToString(page);
    url
  }

  /** Different pages give different URLs: the page is recovered from the
      URL's query. */
  lemma LiveUrlInjective(base: string, p: int, q: int)
    requires LiveUrl(base, p) == LiveUrl(base, q)
    ensures p == q
  {
  }

  /** A negative page is neither rejected nor replaced: it reaches the URL. */
  lemma NegativePagePassesThrough(cfg: ProxyConfig, p: int)
    requires p < 0
    ensures Page(FetchRequest(Some(p))) == p
    ensures ParseInt(LiveUrl(cfg.arcLiveUrl, Page(FetchRequest(Some(p))))[|cfg.arcLiveUrl| + |PageQuery|..]) == Some(p)
  {
  }

  /** An absent or zero page asks for page 1, so "?page=1" ends the URL. */
  lemma DefaultPageUrl(base: string)
    ensures LiveUrl(base, Page(FetchRequest(None))) == base + "?page=1"
    ensures LiveUrl(base, Page(FetchRequest(Some(0)))) == base + "?page=1"
  {
  }

  /** `arc_fetch`: the gate first, then one unauthenticated GET of the live
      URL whose reply is normalised. */
  function Fetch(cfg: ProxyConfig, body: FetchRequest, authorization: Option<string>, upstream: Upstream)
    : (x: Exchange<Envelope>)
    ensures x.Rejected? <==> CheckAuth(cfg.proxySecret, authorization).Fail?
    ensures x.Rejected? ==> x.error == CheckAuth(cfg.proxySecret, authorization).error
    ensures x.Forwarded? ==>
      && x.request.verb == "GET"
      && x.request.url == LiveUrl(cfg.arcLiveUrl, Page(body))
      && x.request.headers == []
      && x.request.payload == None
      && x.request.timeout == LiveTimeout
      && x.reply == Normalize(upstream)
  {
    match CheckAuth(cfg.proxySecret, authorization)
    case Fail(e) => Rejected(e)
    case Pass =>
      Forwarded(Outbound("GET", LiveUrl(cfg.arcLiveUrl, Page(body)), [], None, LiveTimeout), Normalize(upstream))
  }
}

=== FILE: auth.dfy ===
/** The shared-secret gate in front of every endpoint (`check_auth`). */
module Auth {
  import opened Types
  import opened PyStr

  const BearerPrefix: string := "Bearer "

  const MissingHeader: HttpError := HttpError(401, "Missing Authorization header")
  const InvalidSecret: HttpError := HttpError(403, "Invalid proxy secret")

  /** The part of a header the token is taken from: what follows a leading
      "Bearer ", otherwise the whole header. */
  function Unprefixed(header: string): string
  {
    if BearerPrefix <= header then header[|BearerPrefix|..] else header
  }

  /** The token compared with the secret: after a leading "Bearer ", the
      remainder past the first space; otherwise the whole header; stripped
      of surrounding whitespace either way. */
  function Token(header: string): (t: string)
    ensures t == Strip(Unprefixed(header))
  {
    if BearerPrefix <= header then
      SplitOnceAfter(header, "Bearer", ' ');
      Strip(SplitOnce(header, ' ')[1])
    else
      Strip(header)
  }

  /** `check_auth`: an absent or empty header is refused with 401, a header
      whose token differs from the secret with 403; otherwise the call passes. */
  function CheckAuth(secret: string, authorization: Option<string>): (r: Outcome<HttpError>)
    ensures r == Fail(MissingHeader) <==> !NonEmpty(authorization)
    ensures r.Fail? ==> r.error == MissingHeader || r.error == InvalidSecret
    ensures r.Pass? ==> Trimmed(secret)
  {
    if !NonEmpty(authorization) then Fail(MissingHeader)
    else if Token(authorization.value) != secret then Fail(InvalidSecret)
    else Pass
  }

  /** A non-empty header is accepted exactly when, after an optional leading
      "Bearer ", it is the secret with only whitespace around it, and the
      secret itself has no surrounding whitespace. */
  lemma AcceptsExactly(secret: string, header: string)
    requires header != ""
    ensures CheckAuth(secret, Some(header)).Pass?
        <==> Trimmed(secret) && Padded(Unprefixed(header), secret)
  {
    StripExactly(Unprefixed(header), secret);
  }

  /** Every string is its own whitespace padding, with both paddings empty. */
  lemma PaddedSelf(x: string)
    ensures Padded(x, x)
  {
    assert AllSpace(x[..0]) && x[0..|x|] == x && AllSpace(x[|x|..]);
  }

  /** "Bearer s", with or without whitespace around s, is accepted. */
  lemma AcceptsBearer(secret: string, pad1: string, pad2: string)
    requires Trimmed(secret) && AllSpace(pad1) && AllSpace(pad2)
    ensures CheckAuth(secret, Some(BearerPrefix + pad1 + secret + pad2)).Pass?
  {
    var h := BearerPrefix + pad1 + secret + pad2;
    assert BearerPrefix <= h;
    assert Unprefixed(h) == pad1 + secret + pad2;
    PaddedConcat(pad1, secret, pad2);
    AcceptsExactly(secret, h);
  }

  /** The secret with whitespace on its left (and possibly its right) is
      accepted, whatever the secret begins with. */
  lemma AcceptsPadded(secret: string, pad1: string, pad2: string)
    requires Trimmed(secret) && pad1 != "" && AllSpace(pad1) && AllSpace(pad2)
    ensures CheckAuth(secret, Some(pad1 + secret + pad2)).Pass?
  {
    var h := pad1 + secret + pad2;
    assert h[0] == pad1[0];
    assert !(BearerPrefix <= h);
    PaddedConcat(pad1, secret, pad2);
    AcceptsExactly(secret, h);
  }

  /** The bare secret is accepted unless it begins with "Bearer ". */
  lemma AcceptsBare(secret: string)
    requires secret != "" && Trimmed(secret) && !(BearerPrefix <= secret)
    ensures CheckAuth(secret, Some(secret)).Pass?
  {
    PaddedSelf(secret);
    AcceptsExactly(secret, secret);
  }

  lemma PaddedConcat(pre: string, x: string, post: string)
    requires AllSpace(pre) && AllSpace(post)
    ensures Padded(pre + x + post, x)
  {
    var s := pre + x + post;
    var i := |pre|;
    assert s[..i] == pre && s[i..i + |x|] == x && s[i + |x|..] == post;
  }

  /** A non-empty header of whitespace only is refused with 403, not 401,
      unless the secret is configured empty, in which case it is accepted. */
  lemma WhitespaceOnlyHeader(secret: string, header: string)
    requires header != "" && AllSpace(header)
    ensures secret != "" ==> CheckAuth(secret, Some(header)) == Fail(InvalidSecret)
    ensures secret == "" ==> CheckAuth(secret, Some(header)) == Pass
  {
    assert !(BearerPrefix <= header) by { assert IsSpace(header[0]); }
    PaddedConcat(header, "", "");
    assert header + "" + "" == header;
    StripExactly(header, "");
  }

  /** A secret that itself begins with "Bearer " is never accepted when sent
      as the bare header: the prefix is taken as the scheme and removed. */
  lemma BearerLookalikeSecretRefused(secret: string)
    requires BearerPrefix <= secret
    ensures CheckAuth(secret, Some(secret)) == Fail(InvalidSecret)
  {
    assert |Token(secret)| < |secret| by {
      assert |Unprefixed(secret)| == |secret| - |BearerPrefix|;
    }
  }
}

=== FILE: config.dfy ===
/** Process configuration read once from the environment at start-up.
    The environment is an immutable map from variable name to value. */
module Config {

  type Env = map<string, string>

  const DefaultProxySecret: string := "changeme"
  const DefaultArcLoginUrl: string := "http://49.249.49.218:5000/api/login"
  const DefaultArcLiveUrl: string := "http://49.249.49.218:5000/api/DefTableLocodetails"
  const DefaultIrrmsLoginUrl: string := "https://irrms-service.locomatrice.com/RMS/save/session/management/login"
  const DefaultIrrmsDataUrl: string := "https://irrms-service.locomatrice.com/RMS/get/realTimeData/getAllLocosRealtimeData"

  datatype ProxyConfig = ProxyConfig(
    proxySecret: string,
    arcLoginUrl: string,
    arcLiveUrl: string,
    irrmsLoginUrl: string,
    irrmsDataUrl: string,
    env: Env)

  /** `os.environ.get(name, default)`: a variable that is set wins, even
      when its value is empty. */
  function EnvGet(env: Env, name: string, default: string): (v: string)
    ensures name in env ==> v == env[name]
    ensures name !in env ==> v == default
    ensures v == default || v in env.Values
  {
    if name in env then env[name] else default
  }

  /** The module-level settings of the proxy, each with its default. */
  function Load(env: Env): (cfg: ProxyConfig)
    ensures cfg.env == env
    ensures "PROXY_SECRET" in env ==> cfg.proxySecret == env["PROXY_SECRET"]
    ensures "PROXY_SECRET" !in env ==> cfg.proxySecret == DefaultProxySecret
    ensures "ARC_LOGIN_URL" in env ==> cfg.arcLoginUrl == env["ARC_LOGIN_URL"]
    ensures "ARC_LOGIN_URL" !in env ==> cfg.arcLoginUrl == DefaultArcLoginUrl
    ensures "ARC_LIVE_URL" in env ==> cfg.arcLiveUrl == env["ARC_LIVE_URL"]
    ensures "ARC_LIVE_URL" !in env ==> cfg.arcLiveUrl == DefaultArcLiveUrl
    ensures "IRRMS_LOGIN_URL" in env ==> cfg.irrmsLoginUrl == env["IRRMS_LOGIN_URL"]
    ensures "IRRMS_LOGIN_URL" !in env ==> cfg.irrmsLoginUrl == DefaultIrrmsLoginUrl
    ensures "IRRMS_DATA_URL" in env ==> cfg.irrmsDataUrl == env["IRRMS_DATA_URL"]
    ensures "IRRMS_DATA_URL" !in env ==> cfg.irrmsDataUrl == DefaultIrrmsDataUrl
  {
    ProxyConfig(
      EnvGet(env, "PROXY_SECRET", DefaultProxySecret),
      EnvGet(env, "ARC_LOGIN_URL", DefaultArcLoginUrl),
      EnvGet(env, "ARC_LIVE_URL", DefaultArcLiveUrl),
      EnvGet(env, "IRRMS_LOGIN_URL", DefaultIrrmsLoginUrl),
      EnvGet(env, "IRRMS_DATA_URL", DefaultIrrmsDataUrl),
      env)
  }

  /** With none of the five variables set, every setting is its default;
      in particular the proxy secret is the well-known "changeme". */
  lemma LoadDefaults(env: Env)
    requires "PROXY_SECRET" !in env && "ARC_LOGIN_URL" !in env && "ARC_LIVE_URL" !in env
    requires "IRRMS_LOGIN_URL" !in env && "IRRMS_DATA_URL" !in env
    ensures Load(env) == ProxyConfig(DefaultProxySecret, DefaultArcLoginUrl, DefaultArcLiveUrl,
                                     DefaultIrrmsLoginUrl, DefaultIrrmsDataUrl, env)
  {
  }

  /** A variable that is set, even to the empty string, replaces the default. */
  lemma LoadSetSecret(env: Env)
    requires "PROXY_SECRET" in env
    ensures Load(env).proxySecret == env["PROXY_SECRET"]
  {
  }
}

=== FILE: credentials.dfy ===
/** Resolution of the IRRMS authenticate key: a caller-supplied override,
    or the `IRRMS_<SHED>_KEY` environment variable of the named shed
    (`get_irrms_key_for_shed` and the `or` that combines the two). */
module Credentials {
  import opened Types
  import opened PyStr
  import opened Config

  const KeyPrefix: string := "IRRMS_"
  const KeySuffix: string := "_KEY"

  const NoKey: HttpError := HttpError(400, "No authenticateKey provided and no env key found")

  /** The environment variable holding a shed's key. */
  function ShedKeyName(shed: string): (name: string)
    ensures |name| == |KeyPrefix| + |shed| + |KeySuffix|
    ensures name[..|KeyPrefix|] == KeyPrefix
    ensures name[|KeyPrefix| + |shed|..] == KeySuffix
    ensures name[|KeyPrefix|..|KeyPrefix| + |shed|] == Upper(shed)
  {
    KeyPrefix + Upper(shed) + KeySuffix
  }

  /** `get_irrms_key_for_shed`: no key for an empty shed name, otherwise
      whatever the environment holds under the shed's variable. */
  function KeyForShed(env: Env, shed: string): (r: Option<string>)
    ensures shed == "" ==> r == None
    ensures shed != "" ==> (r.Some? <==> ShedKeyName(shed) in env)
    ensures r.Some? ==> r.value == env[ShedKeyName(shed)]
  {
    if shed == "" then None
    else if ShedKeyName(shed) in env then Some(env[ShedKeyName(shed)])
    else None
  }

  /** Python's `a or b` on optional strings: `a` when it is truthy, else `b`. */
  function Or(a: Option<string>, b: Option<string>): (r: Option<string>)
    ensures NonEmpty(r) <==> NonEmpty(a) || NonEmpty(b)
    ensures NonEmpty(a) ==> r == a
    ensures !NonEmpty(a) ==> r == b
  {
    if NonEmpty(a) then a else b
  }

  /** `key = body.authenticateKey or get_irrms_key_for_shed(...)` followed
      by `if not key: raise 400`. A non-empty override wins unchanged;
      otherwise the shed's variable is used if set and non-empty; otherwise
      the call fails with 400. */
  function ResolveKey(env: Env, shed: string, override: Option<string>): (r: Result<string, HttpError>)
    ensures r.Ok? ==> r.value != ""
    ensures r.Err? ==> r.error == NoKey
    ensures NonEmpty(override) ==> r == Ok(override.value)
    ensures !NonEmpty(override) ==>
      (r.Ok? <==> shed != "" && ShedKeyName(shed) in env && env[ShedKeyName(shed)] != "")
    ensures !NonEmpty(override) && r.Ok? ==> r.value == env[ShedKeyName(shed)]
  {
    var key := Or(override, KeyForShed(env, shed));
    if !NonEmpty(key) then Err(NoKey) else Ok(key.value)
  }

  /** Shed names are compared without regard to the case of ASCII letters:
      two names share a key variable exactly when they differ only in case. */
  lemma ShedKeyNameIgnoresCase(a: string, b: string)
    ensures ShedKeyName(a) == ShedKeyName(b) <==> SameIgnoringCase(a, b)
  {
    UpperIgnoresCase(a, b);
    if ShedKeyName(a) == ShedKeyName(b) {
      var n := |ShedKeyName(a)|;
      assert Upper(a) == ShedKeyName(a)[|KeyPrefix|..n - |KeySuffix|];
      assert Upper(b) == ShedKeyName(b)[|KeyPrefix|..n - |KeySuffix|];
    }
  }

  /** Resolution gives the same answer for names differing only in case. */
  lemma ResolveKeyIgnoresCase(env: Env, a: string, b: string, override: Option<string>)
    requires SameIgnoringCase(a, b)
    ensures ResolveKey(env, a, override) == ResolveKey(env, b, override)
  {
    ShedKeyNameIgnoresCase(a, b);
  }

  /** An empty shed name never reads the environment, even when the
      variable its name would give ("IRRMS__KEY") is set. */
  lemma EmptyShedNeedsOverride(env: Env, override: Option<string>)
    ensures ResolveKey(env, "", override).Ok? <==> NonEmpty(override)
  {
  }
}

=== FILE: debug.dfy ===
/** The two gated debug endpoints: `debug_check`, a generic probe returning
    status and a body snippet, and `get_server_ip`, which reports the host
    name and the public address an echo service sees. */
module Debug {
  import opened Types
  import opened PyStr
  import opened Config
  import opened Auth
  import opened Fields
  import opened Http

  const CheckTimeout: nat := 15
  const IpTimeout: nat := 6
  const IpEchoUrl: string := "https://api.ipify.org?format=json"

  /** `debug_check`'s answer, without the response-header snapshot. */
  datatype Report = Report(statusCode: int, snippet: string)

  /** `get_server_ip`'s answer; `publicIp` is `JNull` when unknown. */
  datatype Identity = Identity(hostname: string, publicIp: Json)

  /** `debug_check`: the gate first, then the caller's URL requested with
      the upper-cased method; a failed call is 502 with a prefixed message. */
  function Check(cfg: ProxyConfig, url: string, verb: string, authorization: Option<string>, upstream: Upstream)
    : (x: Exchange<Report>)
    ensures x.Rejected? <==> CheckAuth(cfg.proxySecret, authorization).Fail?
    ensures x.Rejected? ==> x.error == CheckAuth(cfg.proxySecret, authorization).error
    ensures x.Forwarded? ==> x.request == Outbound(Upper(verb), url, [], None, CheckTimeout)
    ensures x.Forwarded? ==> (x.reply.Err? <==> upstream.Unreachable?)
    ensures x.Forwarded? && x.reply.Err? ==>
      x.reply.error == HttpError(502, "Error during fetch: " + upstream.cause)
    ensures x.Forwarded? && x.reply.Ok? ==>
      x.reply.value.statusCode == upstream.status
      && x.reply.value.snippet == Snippet(upstream.body)
      && (upstream.body == "" <==> x.reply.value.snippet == "")
      && |x.reply.value.snippet| <= SnippetLimit + |Ellipsis|
  {
    match CheckAuth(cfg.proxySecret, authorization)
    case Fail(e) => Rejected(e)
    case Pass =>
      var reply := match upstream
        case Unreachable(cause) => Err(HttpError(502, "Error during fetch: " + cause))
        case Reply(status, body, _) => Ok(Report(status, Snippet(body)));
      Forwarded(Outbound(Upper(verb), url, [], None, CheckTimeout), reply)
  }

  /** `session.get(...).json().get("ip")`, with any exception read as
      `None`: a failed call, a body that is not JSON, or JSON that is not an
      object (which has no `.get`). */
  function PublicIp(upstream: Upstream): (ip: Json)
    ensures ip != JNull ==>
      upstream.Reply? && upstream.parsed.Some? && upstream.parsed.value.JObject?
      && Get(upstream.parsed.value.fields, "ip") == Some(ip)
    ensures (upstream.Reply? && upstream.parsed.Some? && upstream.parsed.value.JObject?
             && Get(upstream.parsed.value.fields, "ip").Some?) ==>
      ip == Get(upstream.parsed.value.fields, "ip").value
    ensures upstream.Unreachable? || upstream.parsed.None? || !upstream.parsed.value.JObject? ==> ip == JNull
  {
    match upstream
    case Reply(_, _, Some(JObject(fields))) =>
      (match Get(fields, "ip") case Some(v) => v case None => JNull)
    case _ => JNull
  }

  /** `get_server_ip`: the gate first, then one GET of the echo service;
      the call never fails once past the gate. */
  function ServerIp(cfg: ProxyConfig, authorization: Option<string>, hostname: string, upstream: Upstream)
    : (x: Exchange<Identity>)
    ensures x.Rejected? <==> CheckAuth(cfg.proxySecret, authorization).Fail?
    ensures x.Rejected? ==> x.error == CheckAuth(cfg.proxySecret, authorization).error
    ensures x.Forwarded? ==> x.request == Outbound("GET", IpEchoUrl, [], None, IpTimeout)
    ensures x.Forwarded? ==> x.reply.Ok? && x.reply.value.hostname == hostname
    ensures x.Forwarded? ==> x.reply.value.publicIp == PublicIp(upstream)
    ensures x.Forwarded? && upstream.Unreachable? ==> x.reply.value.publicIp == JNull
  {
    match CheckAuth(cfg.proxySecret, authorization)
    case Fail(e) => Rejected(e)
    case Pass =>
      Forwarded(Outbound("GET", IpEchoUrl, [], None, IpTimeout), Ok(Identity(hostname, PublicIp(upstream))))
  }

  /** A non-empty body of at most 800 characters is shown whole and still
      followed by "...": the marker does not mean that anything was cut. */
  lemma SnippetAlwaysMarked(body: string)
    requires body != "" && |body| <= SnippetLimit
    ensures Snippet(body) == body + Ellipsis
  {
  }
}

=== FILE: decimal.dfy ===
/** Python's `str(n)` for integers (as used by an f-string `{page}`) and
    the decimal reading that inverts it. */
module Decimal {
  import opened Types

  predicate IsDigit(c: char)
  {
    '0' <= c <= '9'
  }

  predicate AllDigits(s: string)
  {
    forall i | 0 <= i < |s| :: IsDigit(s[i])
  }

  function DigitChar(d: nat): char
    requires d < 10
  {
    (d + '0' as int) as char
  }

  function DigitValue(c: char): nat
    requires IsDigit(c)
  {
    c as int - '0' as int
  }

  /** Decimal digits of `n`, most significant first, with no leading zero. */
  function NatToString(n: nat): (r: string)
    ensures r != [] && AllDigits(r)
    ensures r[0] == '0' ==> r == "0"
    ensures n > 0 ==> r[0] != '0'
    decreases n
  {
    if n < 10 then [DigitChar(n)] else NatToString(n / 10) + [DigitChar(n % 10)]
  }

  /** The number a string of decimal digits denotes. */
  function DigitsValue(s: string): nat
    requires AllDigits(s)
  {
    if s == [] then 0 else DigitsValue(s[..|s| - 1]) * 10 + DigitValue(s[|s| - 1])
  }

  /** The form `str(i)` produces: decimal digits with no leading zero (a
      lone "0" aside), after a minus sign exactly for negatives, never "-0". */
  predicate Canonical(s: string)
  {
    if s != [] && s[0] == '-' then
      |s| > 1 && AllDigits(s[1..]) && s[1] != '0'
    else
      s != [] && AllDigits(s) && (s[0] == '0' ==> s == "0")
  }

  /** Python's `str(i)`: a minus sign for negatives, then the digits. */
  function IntToString(i: int): (r: string)
    ensures Canonical(r)
    ensures r[0] == '-' <==> i < 0
  {
    if i < 0 then "-" + NatToString(-i) else NatToString(i)
  }

  /** Reads an optional minus sign followed by at least one digit. */
  function ParseInt(s: string): Option<int>
  {
    if s != [] && s[0] == '-' then
      if |s| > 1 && AllDigits(s[1..]) then Some(-(DigitsValue(s[1..]) as int)) else None
    else if s != [] && AllDigits(s) then Some(DigitsValue(s))
    else None
  }

  lemma {:induction false} NatToStringRoundTrip(n: nat)
    ensures DigitsValue(NatToString(n)) == n
    decreases n
  {
    if n >= 10 {
      NatToStringRoundTrip(n / 10);
      var s := NatToString(n);
      assert s[..|s| - 1] == NatToString(n / 10);
    }
  }

  /** Rendering then reading an integer gives it back, so distinct integers
      render differently. */
  lemma IntToStringRoundTrip(i: int)
    ensures ParseInt(IntToString(i)) == Some(i)
  {
    if i < 0 {
      NatToStringRoundTrip(-i);
      assert IntToString(i)[1..] == NatToString(-i);
    } else {
      NatToStringRoundTrip(i);
    }
  }

  /** Digits that do not start with '0' denote a positive number. */
  lemma {:induction false} DigitsPositive(s: string)
    requires s != [] && AllDigits(s) && s[0] != '0'
    ensures DigitsValue(s) > 0
    decreases |s|
  {
    var p := s[..|s| - 1];
    if |s| > 1 {
      assert p[0] == s[0];
      DigitsPositive(p);
    } else {
      assert p == [];
    }
  }

  /** Digits without a leading zero are the rendering of their own value. */
  lemma {:induction false} CanonicalDigits(s: string)
    requires s != [] && AllDigits(s) && (s[0] == '0' ==> s == "0")
    ensures NatToString(DigitsValue(s)) == s
    decreases |s|
  {
    var p := s[..|s| - 1];
    var d := DigitValue(s[|s| - 1]);
    if |s| == 1 {
      assert p == [];
      assert DigitsValue(s) == d;
      assert NatToString(d) == [DigitChar(d)];
    } else {
      assert p[0] == s[0];
      CanonicalDigits(p);
      DigitsPositive(p);
      var v := DigitsValue(s);
      assert v == DigitsValue(p) * 10 + d;
      assert v / 10 == DigitsValue(p) && v % 10 == d;
      assert NatToString(v) == NatToString(v / 10) + [DigitChar(v % 10)];
      assert s == p + [s[|s| - 1]];
    }
  }

  /** The canonical strings are exactly the renderings: a canonical string
      reads as some integer and is that integer's `str`. With the round trip,
      a number has one and only one canonical spelling. */
  lemma CanonicalIsRendering(s: string)
    requires Canonical(s)
    ensures ParseInt(s).Some? && IntToString(ParseInt(s).value) == s
  {
    if s[0] == '-' {
      var t := s[1..];
      CanonicalDigits(t);
      DigitsPositive(t);
      assert s == "-" + t;
    } else {
      CanonicalDigits(s);
    }
  }
}

=== FILE: fields.dfy ===
/** A JSON object (Python `dict` with string keys) as its entries in
    insertion order, with `dict.get` and the comprehension that drops
    `None`-valued entries. */
module Fields {
  import opened Types

  type Object = seq<(string, Json)>

  predicate HasKey(o: Object, k: string)
  {
    exists i | 0 <= i < |o| :: o[i].0 == k
  }

  /** A dict never holds the same key twice. */
  predicate DistinctKeys(o: Object)
  {
    forall i, j | 0 <= i < j < |o| :: o[i].0 != o[j].0
  }

  /** No entry holds `None`. */
  predicate NoNone(o: Object)
  {
    forall i | 0 <= i < |o| :: o[i].1 != JNull
  }

  /** `o.get(k)`: the value stored under `k`, if any. */
  function Get(o: Object, k: string): (r: Option<Json>)
    ensures r.Some? <==> HasKey(o, k)
    ensures r.Some? ==> (k, r.value) in o
  {
    if o == [] then None
    else if o[0].0 == k then Some(o[0].1)
    else
      var r := Get(o[1..], k);
      assert HasKey(o, k) <==> HasKey(o[1..], k) by {
        assert forall i | 1 <= i < |o| :: o[i] == o[1..][i - 1];
      }
      r
  }

  /** `{k: v for k, v in o.items() if v is not None}`: keeps, in order,
      exactly the entries whose value is not `None`. */
  function DropNone(o: Object): (r: Object)
    ensures NoNone(r)
    ensures |r| <= |o|
    ensures forall e :: e in r <==> e in o && e.1 != JNull
    ensures DistinctKeys(o) ==> DistinctKeys(r)
  {
    if o == [] then []
    else
      var rest := DropNone(o[1..]);
      assert DistinctKeys(o) ==> forall e | e in rest :: e.0 != o[0].0 by {
        if DistinctKeys(o) {
          forall e | e in rest ensures e.0 != o[0].0 {
            var i :| 0 <= i < |o[1..]| && o[1..][i] == e;
            assert o[i + 1] == e;
          }
        }
      }
      assert forall e :: e in o <==> e == o[0] || e in o[1..];
      if o[0].1 == JNull then rest else [o[0]] + rest
  }

  /** Filtering distributes over concatenation, so the kept entries stay in
      their original order. */
  lemma {:induction false} DropNoneConcat(a: Object, b: Object)
    ensures DropNone(a + b) == DropNone(a) + DropNone(b)
    decreases |a|
  {
    if a != [] {
      assert (a + b)[0] == a[0];
      assert (a + b)[1..] == a[1..] + b;
      DropNoneConcat(a[1..], b);
    } else {
      assert a + b == b;
    }
  }

  /** Looking a key up after dropping `None` entries finds the original
      value when it was not `None`, and nothing otherwise. */
  lemma {:induction false} GetDropNone(o: Object, k: string)
    requires DistinctKeys(o)
    ensures Get(DropNone(o), k) == if Get(o, k) == Some(JNull) then None else Get(o, k)
  {
    if o != [] {
      assert DistinctKeys(o[1..]) by {
        forall i, j | 0 <= i < j < |o[1..]| ensures o[1..][i].0 != o[1..][j].0 {
          assert o[1..][i] == o[i + 1] && o[1..][j] == o[j + 1];
        }
      }
      GetDropNone(o[1..], k);
      if o[0].0 == k {
        assert !HasKey(o[1..], k) by {
          forall i | 0 <= i < |o[1..]| ensures o[1..][i].0 != k {
            assert o[1..][i] == o[i + 1];
          }
        }
        var rest := DropNone(o[1..]);
        assert !HasKey(rest, k) by {
          forall i | 0 <= i < |rest| ensures rest[i].0 != k {
            assert rest[i] in rest;
            var j :| 0 <= j < |o[1..]| && o[1..][j] == rest[i];
          }
        }
      }
    }
  }
}

=== FILE: http.dfy ===
/** What a handler sends upstream and what it returns: the outbound request
    description, the abstract upstream outcome, the `{status_code, json|text}`
    envelope and the debug snippet. */
module Http {
  import opened Types
  import opened PyStr
  import opened Fields

  /** Characters of a non-JSON body kept in an envelope. */
  const TextLimit: nat := 2000
  /** Characters of a body kept in a debug snippet, before the "...". */
  const SnippetLimit: nat := 800
  const Ellipsis: string := "..."

  /** An outbound call: HTTP method (verb), URL, headers in order, optional JSON body
      and the timeout in seconds. */
  datatype Outbound = Outbound(
    verb: string,
    url: string,
    headers: seq<(string, string)>,
    payload: Option<Object>,
    timeout: nat)

  /** What the upstream call produced: the request raised (connection
      failure, retries exhausted, ...) with a message, or a response with
      its status, its text, and its JSON decoding when the text parses. */
  datatype Upstream =
    | Unreachable(cause: string)
    | Reply(status: int, body: string, parsed: Option<Json>)

  /** The handlers' response: exactly one of `json` or `text` next to
      `status_code`. */
  datatype Envelope =
    | JsonEnvelope(statusCode: int, json: Json)
    | TextEnvelope(statusCode: int, text: string)

  /** One handler invocation: refused before anything is sent, or one
      outbound request together with what the handler made of its reply. */
  datatype Exchange<+R> =
    | Rejected(error: HttpError)
    | Forwarded(request: Outbound, reply: Result<R, HttpError>)

  /** The envelope as the JSON object the endpoint returns. */
  function EnvelopeObject(e: Envelope): (o: Object)
    ensures |o| == 2 && DistinctKeys(o)
    ensures o[0] == ("status_code", JInt(e.statusCode))
    ensures e.JsonEnvelope? ==> o[1] == ("json", e.json)
    ensures e.TextEnvelope? ==> o[1] == ("text", JStr(e.text))
  {
    match e
    case JsonEnvelope(s, j) => [("status_code", JInt(s)), ("json", j)]
    case TextEnvelope(s, t) => [("status_code", JInt(s)), ("text", JStr(t))]
  }

  /** The `try: r.json() except: r.text[:2000]` response shaping, inside the
      outer `except` that turns a failed call into 502 with its message. */
  function Normalize(up: Upstream): (r: Result<Envelope, HttpError>)
    ensures r.Err? <==> up.Unreachable?
    ensures r.Err? ==> r.error == HttpError(502, up.cause)
    ensures r.Ok? ==> r.value.statusCode == up.status
    ensures r.Ok? ==> (r.value.JsonEnvelope? <==> up.parsed.Some?)
    ensures r.Ok? && r.value.JsonEnvelope? ==> r.value.json == up.parsed.value
    ensures r.Ok? && r.value.TextEnvelope? ==>
      r.value.text <= up.body && |r.value.text| == if |up.body| <= TextLimit then |up.body| else TextLimit
  {
    match up
    case Unreachable(cause) => Err(HttpError(502, cause))
    case Reply(status, body, parsed) =>
      match parsed
      case Some(j) => Ok(JsonEnvelope(status, j))
      case None => Ok(TextEnvelope(status, Take(body, TextLimit)))
  }

  /** Every returned envelope object has `status_code` equal to the upstream
      status and exactly one of the keys `json` and `text`. */
  lemma EnvelopeHasOneBody(up: Upstream)
    requires up.Reply?
    ensures Normalize(up).Ok?
    ensures Get(EnvelopeObject(Normalize(up).value), "status_code") == Some(JInt(up.status))
    ensures HasKey(EnvelopeObject(Normalize(up).value), "json") <==> up.parsed.Some?
    ensures HasKey(EnvelopeObject(Normalize(up).value), "text") <==> up.parsed.None?
    ensures |EnvelopeObject(Normalize(up).value)| == 2
  {
    var o := EnvelopeObject(Normalize(up).value);
    assert o[0].0 == "status_code";
    assert o[1].0 == "json" || o[1].0 == "text";
  }

  /** A body that does not parse and fits the limit reaches the caller whole. */
  lemma ShortTextIsLossless(up: Upstream)
    requires up.Reply? && up.parsed.None? && |up.body| <= TextLimit
    ensures Normalize(up) == Ok(TextEnvelope(up.status, up.body))
  {
  }

  /** `(r.text[:800] + "...") if r.text else ""`. */
  function Snippet(body: string): (r: string)
    ensures body == "" <==> r == ""
    ensures body != "" ==> |r| == (if |body| <= SnippetLimit then |body| else SnippetLimit) + |Ellipsis|
    ensures body != "" ==> r[..|r| - |Ellipsis|] <= body && r[|r| - |Ellipsis|..] == Ellipsis
  {
    if body == "" then "" else Take(body, SnippetLimit) + Ellipsis
  }

  /** What a snippet shows of the body: it without the trailing "...". */
  function SnippetText(snippet: string): string
  {
    if |snippet| < |Ellipsis| then "" else snippet[..|snippet| - |Ellipsis|]
  }

  /** A body of at most 800 characters is recovered whole from its snippet;
      a longer one gives its first 800 characters. */
  lemma SnippetRoundTrip(body: string)
    ensures |body| <= SnippetLimit ==> SnippetText(Snippet(body)) == body
    ensures |body| > SnippetLimit ==> SnippetText(Snippet(body)) == body[..SnippetLimit]
  {
  }
}

=== FILE: irrms.dfy ===
/** The IRRMS endpoint (`irrms_fetch`): gate, key resolution, outbound
    headers and payload, and the response envelope. */
module Irrms {
  import opened Types
  import opened Config
  import opened Auth
  import opened Credentials
  import opened Fields
  import opened Http

  /** The validated request body. A missing `shedId` has already been given
      its default 0 by validation; `None` here is an explicit `null`. */
  datatype FetchRequest = FetchRequest(
    shedName: string,
    shedId: Option<int>,
    authenticateKey: Option<string>,
    fromDateTime: Option<string>,
    toDateTime: Option<string>,
    extra: Option<map<string, Json>>)

  const DataTimeout: nat := 25

  /** The fixed header set of the data call; `Authorization` carries the key. */
  function Headers(key: string): (h: seq<(string, string)>)
    ensures |h| == 5
    ensures h[0] == ("Content-Type", "application/json; charset=UTF-8")
    ensures h[1] == ("Origin", "https://irrms.locomatrice.com")
    ensures h[2] == ("Referer", "https://irrms.locomatrice.com/")
    ensures h[3] == ("Accept", "application/json, text/plain, */*")
    ensures h[4] == ("Authorization", key)
    ensures forall i, j | 0 <= i < j < |h| :: h[i].0 != h[j].0
  {
    [ ("Content-Type", "application/json; charset=UTF-8"),
      ("Origin", "https://irrms.locomatrice.com"),
      ("Referer", "https://irrms.locomatrice.com/"),
      ("Accept", "application/json, text/plain, */*"),
      ("Authorization", key) ]
  }

  /** `body.shedId or 0`. */
  function ShedIdOrZero(shedId: Option<int>): (id: int)
    ensures shedId.None? ==> id == 0
    ensures shedId.Some? ==> id == shedId.value
  {
    if shedId.Some? && shedId.value != 0 then shedId.value else 0
  }

  /** `extra.get(name) if extra and extra.get(name) else None`: the value
      only when it is truthy. */
  function ExtraValue(extra: Option<map<string, Json>>, name: string): (v: Json)
    ensures v != JNull <==> extra.Some? && name in extra.value && Truthy(extra.value[name])
    ensures v != JNull ==> v == extra.value[name]
  {
    if extra.Some? && extra.value != map[] && name in extra.value && Truthy(extra.value[name])
    then extra.value[name]
    else JNull
  }

  /** An optional string as a JSON value, `None` for absent. */
  function OptionalString(s: Option<string>): Json
  {
    match s
    case None => JNull
    case Some(v) => JStr(v)
  }

  /** The eleven payload keys in the order they are written. */
  const PayloadKeys: seq<string> := [
    "locoId", "locoTypeId", "shedId", "vendorId", "startDate", "endDate",
    "actionMode", "fromDateTime", "toDateTime", "locoNo", "refId"]

  /** The payload dict as written, before `None` values are dropped. */
  function RawPayload(body: FetchRequest): (o: Object)
    ensures |o| == |PayloadKeys|
    ensures forall i | 0 <= i < |o| :: o[i].0 == PayloadKeys[i]
  {
    [ ("locoId", JInt(0)),
      ("locoTypeId", JInt(0)),
      ("shedId", JInt(ShedIdOrZero(body.shedId))),
      ("vendorId", JInt(0)),
      ("startDate", ExtraValue(body.extra, "startDate")),
      ("endDate", ExtraValue(body.extra, "endDate")),
      ("actionMode", JStr("temperatureventilation")),
      ("fromDateTime", OptionalString(body.fromDateTime)),
      ("toDateTime", OptionalString(body.toDateTime)),
      ("locoNo", JStr("All")),
      ("refId", JStr("GetSearchData")) ]
  }

  /** The payload sent: the written dict without its `None` entries. */
  function Payload(body: FetchRequest): (p: Object)
    ensures NoNone(p)
    ensures forall i | 0 <= i < |p| :: p[i].0 in PayloadKeys
  {
    var raw := RawPayload(body);
    var p := DropNone(raw);
    assert forall i | 0 <= i < |p| :: p[i] in raw;
    p
  }

  lemma PayloadKeysDistinct()
    ensures forall i, j | 0 <= i < j < |PayloadKeys| :: PayloadKeys[i] != PayloadKeys[j]
  {
  }

  /** In an object without repeated keys, `get` finds the entry at `i`. */
  lemma GetAt(o: Object, i: nat)
    requires DistinctKeys(o) && i < |o|
    ensures Get(o, o[i].0) == Some(o[i].1)
  {
    var r := Get(o, o[i].0);
    assert HasKey(o, o[i].0);
    var j :| 0 <= j < |o| && o[j] == (o[i].0, r.value);
  }

  /** The payload holds the `i`-th written entry exactly when its value is
      not `None`, and never repeats a key. */
  lemma PayloadEntry(body: FetchRequest, i: nat)
    requires i < |PayloadKeys|
    ensures Get(Payload(body), PayloadKeys[i])
        == if RawPayload(body)[i].1 == JNull then None else Some(RawPayload(body)[i].1)
  {
    var raw := RawPayload(body);
    PayloadKeysDistinct();
    assert DistinctKeys(raw);
    GetAt(raw, i);
    GetDropNone(raw, raw[i].0);
  }

  /** The three identifier filters every IRRMS data call carries, all `0`. */
  lemma PayloadZeroIds(body: FetchRequest)
    ensures Get(Payload(body), "locoId") == Some(JInt(0))
    ensures Get(Payload(body), "locoTypeId") == Some(JInt(0))
    ensures Get(Payload(body), "vendorId") == Some(JInt(0))
  {
    var raw := RawPayload(body);
    assert raw[0] == ("locoId", JInt(0)) && raw[1] == ("locoTypeId", JInt(0)) && raw[3] == ("vendorId", JInt(0));
    PayloadEntry(body, 0);
    PayloadEntry(body, 1);
    PayloadEntry(body, 3);
  }

  /** The three fixed search selectors every IRRMS data call carries. */
  lemma PayloadSearchMode(body: FetchRequest)
    ensures Get(Payload(body), "actionMode") == Some(JStr("temperatureventilation"))
    ensures Get(Payload(body), "locoNo") == Some(JStr("All"))
    ensures Get(Payload(body), "refId") == Some(JStr("GetSearchData"))
  {
    PayloadEntry(body, 6);
    PayloadEntry(body, 9);
    PayloadEntry(body, 10);
  }

  /** `shedId` is always sent: the body's value, or `0` when that is `None`
      (or `0`). No key is repeated and no value is `None`. */
  lemma PayloadShedId(body: FetchRequest)
    ensures DistinctKeys(Payload(body)) && NoNone(Payload(body))
    ensures Get(Payload(body), "shedId") == Some(JInt(ShedIdOrZero(body.shedId)))
  {
    PayloadKeysDistinct();
    var raw := RawPayload(body);
    assert DistinctKeys(raw);
    assert raw[2] == ("shedId", JInt(ShedIdOrZero(body.shedId)));
    PayloadEntry(body, 2);
  }

  /** The optional fields: the two date-times exactly when supplied (an
      empty string included, since only `None` is dropped), and
      `startDate`/`endDate` exactly when `extra` holds a truthy value. */
  lemma PayloadOptionalFields(body: FetchRequest)
    ensures body.fromDateTime.None? ==> Get(Payload(body), "fromDateTime") == None
    ensures body.fromDateTime.Some? ==> Get(Payload(body), "fromDateTime") == Some(JStr(body.fromDateTime.value))
    ensures body.toDateTime.None? ==> Get(Payload(body), "toDateTime") == None
    ensures body.toDateTime.Some? ==> Get(Payload(body), "toDateTime") == Some(JStr(body.toDateTime.value))
    ensures Get(Payload(body), "startDate").Some?
        <==> body.extra.Some? && "startDate" in body.extra.value && Truthy(body.extra.value["startDate"])
    ensures Get(Payload(body), "startDate").Some? ==>
      Get(Payload(body), "startDate").value == body.extra.value["startDate"]
    ensures Get(Payload(body), "endDate").Some?
        <==> body.extra.Some? && "endDate" in body.extra.value && Truthy(body.extra.value["endDate"])
    ensures Get(Payload(body), "endDate").Some? ==>
      Get(Payload(body), "endDate").value == body.extra.value["endDate"]
  {
    PayloadEntry(body, 4);
    PayloadEntry(body, 5);
    PayloadEntry(body, 7);
    PayloadEntry(body, 8);
  }

  /** `irrms_fetch`: the gate first, then key resolution, then one POST to
      the data URL whose reply is normalised. */
  function Fetch(cfg: ProxyConfig, body: FetchRequest, authorization: Option<string>, upstream: Upstream)
    : (x: Exchange<Envelope>)
    ensures CheckAuth(cfg.proxySecret, authorization).Fail? ==>
      x == Rejected(CheckAuth(cfg.proxySecret, authorization).error)
    ensures CheckAuth(cfg.proxySecret, authorization).Pass? ==>
      (x.Rejected? <==> ResolveKey(cfg.env, body.shedName, body.authenticateKey).Err?)
    ensures x.Rejected? ==> x.error.status == 400 || x.error.status == 401 || x.error.status == 403
    ensures x.Forwarded? ==>
      && x.request.verb == "POST"
      && x.request.url == cfg.irrmsDataUrl
      && x.request.timeout == DataTimeout
      && x.request.headers == Headers(ResolveKey(cfg.env, body.shedName, body.authenticateKey).value)
      && x.request.payload == Some(Payload(body))
      && x.reply == Normalize(upstream)
  {
    match CheckAuth(cfg.proxySecret, authorization)
    case Fail(e) => Rejected(e)
    case Pass =>
      match ResolveKey(cfg.env, body.shedName, body.authenticateKey)
      case Err(e) => Rejected(e)
      case Ok(key) =>
        Forwarded(Outbound("POST", cfg.irrmsDataUrl, Headers(key), Some(Payload(body)), DataTimeout),
                  Normalize(upstream))
  }

  /** Past the gate, the call is refused with 400 exactly when neither a
      non-empty override nor a non-empty environment key for a non-empty
      shed name exists. */
  lemma Fetch400Exactly(cfg: ProxyConfig, body: FetchRequest, authorization: Option<string>, upstream: Upstream)
    ensures CheckAuth(cfg.proxySecret, authorization).Pass? ==>
      (Fetch(cfg, body, authorization, upstream) == Rejected(NoKey) <==>
         !NonEmpty(body.authenticateKey)
         && !(body.shedName != "" && ShedKeyName(body.shedName) in cfg.env
              && cfg.env[ShedKeyName(body.shedName)] != ""))
  {
  }

  /** The gate runs first: a missing header is 401 and a wrong secret 403,
      whatever the body and the configured keys. */
  lemma FetchGateFirst(cfg: ProxyConfig, body: FetchRequest, header: string, upstream: Upstream)
    ensures Fetch(cfg, body, None, upstream) == Rejected(MissingHeader)
    ensures Fetch(cfg, body, Some(""), upstream) == Rejected(MissingHeader)
    ensures header != "" && Token(header) != cfg.proxySecret ==>
      Fetch(cfg, body, Some(header), upstream) == Rejected(InvalidSecret)
  {
  }

  /** The forwarded request authenticates with the resolved key: the
      override when it is non-empty, else the shed's environment key. */
  lemma FetchAuthorizationIsKey(cfg: ProxyConfig, body: FetchRequest, authorization: Option<string>, upstream: Upstream)
    ensures var x := Fetch(cfg, body, authorization, upstream);
      x.Forwarded? ==>
      var h := x.request.headers;
      && |h| == 5
      && h[4].0 == "Authorization" && h[4].1 != ""
      && (NonEmpty(body.authenticateKey) ==> h[4].1 == body.authenticateKey.value)
      && (!NonEmpty(body.authenticateKey) ==> h[4].1 == cfg.env[ShedKeyName(body.shedName)])
  {
  }
}

=== FILE: pystr.dfy ===
/** The Python string built-ins the proxy relies on (`str.strip`,
    `str.split(sep, 1)`, `str.startswith`, `str.upper`, slicing `s[:n]`),
    over strings as sequences of Unicode scalar values. */
module PyStr {
  import opened Types

  /** The 29 code points Python's `str.isspace()` accepts, listed one by one. */
  const PythonWhitespace: set<char> := {
    '\U{09}', '\U{0A}', '\U{0B}', '\U{0C}', '\U{0D}',
    '\U{1C}', '\U{1D}', '\U{1E}', '\U{1F}', '\U{20}',
    '\U{85}', '\U{A0}', '\U{1680}',
    '\U{2000}', '\U{2001}', '\U{2002}', '\U{2003}', '\U{2004}', '\U{2005}',
    '\U{2006}', '\U{2007}', '\U{2008}', '\U{2009}', '\U{200A}',
    '\U{2028}', '\U{2029}', '\U{202F}', '\U{205F}', '\U{3000}' }

  /** Python's `str.isspace()` for one character: exactly the characters
      that `str.strip()` with no argument removes. */
  predicate IsSpace(c: char)
    ensures IsSpace(c) <==> c in PythonWhitespace
  {
    || ('\t' <= c <= '\r')
    || ('\U{1C}' <= c <= '\U{1F}')
    || c == ' '
    || c == '\U{85}'
    || c == '\U{A0}'
    || c == '\U{1680}'
    || ('\U{2000}' <= c <= '\U{200A}')
    || c == '\U{2028}'
    || c == '\U{2029}'
    || c == '\U{202F}'
    || c == '\U{205F}'
    || c == '\U{3000}'
  }

  predicate AllSpace(s: string)
  {
    forall i | 0 <= i < |s| :: IsSpace(s[i])
  }

  lemma AllSpaceConcat(a: string, b: string)
    requires AllSpace(a) && AllSpace(b)
    ensures AllSpace(a + b)
  {
    forall i | 0 <= i < |a + b| ensures IsSpace((a + b)[i]) {
      if i < |a| { assert (a + b)[i] == a[i]; } else { assert (a + b)[i] == b[i - |a|]; }
    }
  }

  /** Neither starts nor ends with whitespace. */
  predicate Trimmed(s: string)
  {
    s == [] || (!IsSpace(s[0]) && !IsSpace(s[|s| - 1]))
  }

  /** `s` is `x` with nothing but whitespace on either side of it. */
  ghost predicate Padded(s: string, x: string)
  {
    exists i | 0 <= i <= |s| - |x| ::
      AllSpace(s[..i]) && s[i..i + |x|] == x && AllSpace(s[i + |x|..])
  }

  /** Drops leading whitespace. */
  function TrimLeft(s: string): (r: string)
    ensures |r| <= |s| && r == s[|s| - |r|..]
    ensures AllSpace(s[..|s| - |r|])
    ensures r == [] || !IsSpace(r[0])
    decreases |s|
  {
    if s != [] && IsSpace(s[0]) then
      var r := TrimLeft(s[1..]);
      var k := |s| - |r|;
      assert s[1..][k - 1..] == s[k..];
      assert s[..k] == [s[0]] + s[1..][..k - 1];
      AllSpaceConcat([s[0]], s[1..][..k - 1]);
      r
    else s
  }

  /** Drops trailing whitespace. */
  function TrimRight(s: string): (r: string)
    ensures |r| <= |s| && r == s[..|r|]
    ensures AllSpace(s[|r|..])
    ensures r == [] || !IsSpace(r[|r| - 1])
    decreases |s|
  {
    if s != [] && IsSpace(s[|s| - 1]) then
      var r := TrimRight(s[..|s| - 1]);
      assert s[..|s| - 1][..|r|] == s[..|r|];
      assert s[|r|..] == s[..|s| - 1][|r|..] + [s[|s| - 1]];
      AllSpaceConcat(s[..|s| - 1][|r|..], [s[|s| - 1]]);
      r
    else s
  }

  /** Python's `str.strip()` with no argument. */
  function Strip(s: string): (r: string)
    ensures Trimmed(r)
    ensures |r| <= |s|
    ensures Padded(s, r)
  {
    var left := TrimLeft(s);
    var r := TrimRight(left);
    var i := |s| - |left|;
    assert s[i..i + |r|] == left[..|r|] == r;
    assert s[i + |r|..] == left[|r|..];
    assert r != [] ==> r[0] == left[0];
    PaddedAt(s, r, i);
    r
  }

  /** If `s[..i]` is whitespace and `s[i]` is not (or `i` is the end), then
      `TrimLeft(s)` starts exactly at `i`. */
  lemma {:induction false} TrimLeftAt(s: string, i: nat)
    requires i <= |s| && AllSpace(s[..i])
    requires i == |s| || !IsSpace(s[i])
    ensures TrimLeft(s) == s[i..]
    decreases i
  {
    if i > 0 {
      assert IsSpace(s[0]) by { assert s[..i][0] == s[0]; }
      var t := s[1..];
      var u := t[..i - 1];
      assert AllSpace(u) by {
        forall m | 0 <= m < |u| ensures IsSpace(u[m]) {
          assert u[m] == s[..i][m + 1];
        }
      }
      assert i - 1 < |t| ==> t[i - 1] == s[i];
      TrimLeftAt(t, i - 1);
      assert t[i - 1..] == s[i..];
    }
  }

  /** If `s[j..]` is whitespace and `s[j - 1]` is not (or `j` is 0), then
      `TrimRight(s)` ends exactly at `j`. */
  lemma {:induction false} TrimRightAt(s: string, j: nat)
    requires j <= |s| && AllSpace(s[j..])
    requires j == 0 || !IsSpace(s[j - 1])
    ensures TrimRight(s) == s[..j]
    decreases |s| - j
  {
    if j < |s| {
      assert IsSpace(s[|s| - 1]) by { assert s[j..][|s| - 1 - j] == s[|s| - 1]; }
      var t := s[..|s| - 1];
      var u := t[j..];
      assert AllSpace(u) by {
        forall m | 0 <= m < |u| ensures IsSpace(u[m]) {
          assert u[m] == s[j..][m];
        }
      }
      assert 0 < j ==> t[j - 1] == s[j - 1];
      TrimRightAt(t, j);
      assert t[..j] == s[..j];
    }
  }

  /** Exhibits the split that makes `s` a whitespace padding of `x`. */
  lemma PaddedAt(s: string, x: string, i: nat)
    requires i + |x| <= |s| && AllSpace(s[..i]) && s[i..i + |x|] == x && AllSpace(s[i + |x|..])
    ensures Padded(s, x)
  {
  }

  /** A string of whitespace only strips to the empty string. */
  lemma StripAllSpace(s: string)
    requires AllSpace(s)
    ensures Strip(s) == []
  {
    TrimLeftAt(s, |s|);
    assert s[|s|..] == [];
  }

  /** A non-empty trimmed `x` padded with whitespace strips to `x`. */
  lemma StripPaddedNonEmpty(s: string, x: string, i: nat)
    requires x != [] && Trimmed(x)
    requires i <= |s| - |x| && AllSpace(s[..i]) && s[i..i + |x|] == x && AllSpace(s[i + |x|..])
    ensures Strip(s) == x
  {
    assert s[i] == x[0];
    TrimLeftAt(s, i);
    var t := s[i..];
    assert t[|x|..] == s[i + |x|..];
    assert t[|x| - 1] == x[|x| - 1];
    TrimRightAt(t, |x|);
    assert t[..|x|] == x;
  }

  /** `Strip` is characterised by its contract: the stripped string of `s` is
      the one trimmed string that `s` pads with whitespace. */
  lemma StripExactly(s: string, x: string)
    ensures Strip(s) == x <==> Trimmed(x) && Padded(s, x)
  {
    if Trimmed(x) && Padded(s, x) {
      var i :| 0 <= i <= |s| - |x| && AllSpace(s[..i]) && s[i..i + |x|] == x && AllSpace(s[i + |x|..]);
      if x == [] {
        assert s == s[..i] + s[i..];
        assert s[i..] == s[i + |x|..];
        AllSpaceConcat(s[..i], s[i..]);
        StripAllSpace(s);
      } else {
        StripPaddedNonEmpty(s, x, i);
      }
    }
  }

  /** Position of the first occurrence of `c` in `s`, if any. */
  function IndexOf(s: string, c: char): (r: Option<nat>)
    ensures r.Some? ==> r.value < |s| && s[r.value] == c && c !in s[..r.value]
    ensures r.None? ==> c !in s
  {
    if s == [] then None
    else if s[0] == c then Some(0)
    else match IndexOf(s[1..], c)
      case None => None
      case Some(k) =>
        assert s[..k + 1] == [s[0]] + s[1..][..k];
        Some(k + 1)
  }

  /** Python's `s.split(sep, 1)` for a one-character separator: the whole
      string when `sep` does not occur, otherwise the parts before and after
      its first occurrence. */
  function SplitOnce(s: string, sep: char): (parts: seq<string>)
    ensures |parts| == 1 || |parts| == 2
    ensures |parts| == 1 <==> sep !in s
    ensures |parts| == 1 ==> parts[0] == s
    ensures |parts| == 2 ==> s == parts[0] + [sep] + parts[1] && sep !in parts[0]
  {
    match IndexOf(s, sep)
    case None => [s]
    case Some(i) =>
      assert s == s[..i] + [sep] + s[i + 1..];
      [s[..i], s[i + 1..]]
  }

  /** When `s` starts with `head + [sep]` and `head` has no `sep`, splitting
      once at `sep` yields `head` and everything after the separator. */
  lemma SplitOnceAfter(s: string, head: string, sep: char)
    requires sep !in head && head + [sep] <= s
    ensures SplitOnce(s, sep) == [head, s[|head| + 1..]]
  {
    assert s[|head|] == (head + [sep])[|head|] == sep;
    var parts := SplitOnce(s, sep);
    var n := |parts[0]|;
    assert parts[0] == s[..n];
    assert head == s[..|head|];
    assert parts[1] == s[n + 1..];
  }

  /** Python's `c.upper()` for ASCII letters; every other character is
      left unchanged. */
  function UpperChar(c: char): char
  {
    if 'a' <= c <= 'z' then (c as int - 32) as char else c
  }

  /** ASCII lower-casing, the reference for comparing without case. */
  function LowerChar(c: char): char
  {
    if 'A' <= c <= 'Z' then (c as int + 32) as char else c
  }

  /** Python's `s.upper()`, character by character. */
  function Upper(s: string): (r: string)
    ensures |r| == |s|
    ensures forall i | 0 <= i < |s| :: r[i] == UpperChar(s[i])
  {
    seq(|s|, i requires 0 <= i < |s| => UpperChar(s[i]))
  }

  /** Two strings that differ at most in the case of ASCII letters. */
  predicate SameIgnoringCase(a: string, b: string)
  {
    |a| == |b| && forall i | 0 <= i < |a| :: LowerChar(a[i]) == LowerChar(b[i])
  }

  lemma UpperCharIgnoresCase(x: char, y: char)
    ensures UpperChar(x) == UpperChar(y) <==> LowerChar(x) == LowerChar(y)
  {
  }

  /** Upper-casing identifies exactly the strings equal up to case. */
  lemma UpperIgnoresCase(a: string, b: string)
    ensures Upper(a) == Upper(b) <==> SameIgnoringCase(a, b)
  {
    if Upper(a) == Upper(b) {
      forall i | 0 <= i < |a| ensures LowerChar(a[i]) == LowerChar(b[i]) {
        UpperCharIgnoresCase(a[i], b[i]);
      }
    }
    if SameIgnoringCase(a, b) {
      forall i | 0 <= i < |a| ensures Upper(a)[i] == Upper(b)[i] {
        UpperCharIgnoresCase(a[i], b[i]);
      }
    }
  }

  /** Python's slice `s[:n]` for a non-negative `n`. */
  function Take(s: string, n: nat): (r: string)
    ensures r <= s
    ensures |r| == if |s| <= n then |s| else n
  {
    if |s| <= n then s else s[..n]
  }
}

=== FILE: types.dfy ===
/** Shared value types of the proxy: optional values, results, JSON values
    as Python's json module decodes them, and the HTTP errors a handler raises. */
module Types {

  /** Python's `Optional[T]`: `None` or a value. */
  datatype Option<+T> = None | Some(value: T)

  /** A computation that either yields a value or fails with an error. */
  datatype Result<+R, +E> = Ok(value: R) | Err(error: E)

  /** A check that either passes or fails with an error; carries no value. */
  datatype Outcome<+E> = Pass | Fail(error: E)

  /** A decoded JSON value. Numbers are integers only (floats are not
      modelled); `JNull` is Python's `None`. */
  datatype Json =
    | JNull
    | JBool(b: bool)
    | JInt(i: int)
    | JStr(s: string)
    | JArray(items: seq<Json>)
    | JObject(fields: seq<(string, Json)>)

  /** Python truthiness of a decoded JSON value: `None`, `False`, `0`, `""`,
      `[]` and `{}` are false, everything else is true. */
  predicate Truthy(v: Json)
    ensures !Truthy(v) <==> v in {JNull, JBool(false), JInt(0), JStr(""), JArray([]), JObject([])}
  {
    match v
    case JNull => false
    case JBool(b) => b
    case JInt(i) => i != 0
    case JStr(s) => s != ""
    case JArray(items) => items != []
    case JObject(fields) => fields != []
  }

  /** Python truthiness of an `Optional[str]`: present and non-empty. */
  predicate NonEmpty(o: Option<string>)
    ensures !NonEmpty(o) <==> o == None || o == Some("")
  {
    o.Some? && o.value != ""
  }

  /** An `HTTPException` raised by an endpoint: status code and detail text. */
  datatype HttpError = HttpError(status: int, detail: string)
}
